=== FILE: README.md ===
# eslint-svelte3-preprocess — a Dafny model of the synchronous bridge

The package lets an ESLint processor, which must return a transformed
Svelte component synchronously, obtain the output of Svelte's asynchronous
`preprocess`. The caller posts a request to a worker thread. It then polls
in two bounded phases and returns the worker's result. When no result
arrives, it falls back to the last good result. Around the preprocessor
chain, the worker puts a capture step and a finalize step. These record each
region's original text, final text and size difference: for the markup, for
the TypeScript `module` and `instance` scripts, and for the style. The worker
also formats its own log lines.

Modules:

- `Types` (`types.dfy`): `Markup`, `Script`, `Style`, `Result` and the compiler output. Fields that may be undefined are `Option`s. `ast` has the opaque type `Ast`. The source's `module` field is called `moduleScript`, because `module` is a Dafny keyword.
- `Bracket` (`bracket.dfy`): attribute tests, the capture and finalize handlers, the chain built around the caller's groups, and an abstract run of that chain by the compiler. It also holds the bracketing theorem, which relates that run to the caller's groups applied on their own.
- `Worker` (`worker.dfy`): both copies of the worker's `preprocess`. It also covers the file-name default, result assembly, stripping `toString`, and the reply with or without `catch`.
- `Poll` (`poll.dfy`): the caller's two-phase polling with the last-good cache, as a method with loop invariants. It also has a reference answer per call and the last-known-good lemma over a run of calls. A second part models what the listener hears from a queue of replies, including a late reply to an earlier request, and a corrected call that ignores replies to other requests.
- `Entry` (`entry.dfy`): one call end to end, with the worker's reply as the arrival the polling sees.
- `Log` (`log.dfy`): the worker's `log` formatter over a small JavaScript value type.

How the bridge is built, as the code has it:

- The code polls in two phases: 200 polls of 10 ms, then 20 polls of 100 ms. It has no blocking wait on shared memory.
- The completion flag and the result are locals of each call. Replies carry no request number, though. Every call's listener takes whatever `PREPROCESS_RESULT` it hears first, and only the listener is removed when a call ends. Suppose the host does not return to the event loop between two calls, as a synchronous ESLint run does not. Then a late reply to a request that timed out is still queued when the next call starts listening, and that call returns it (see "## Findings"). A host that runs the event loop between calls would instead deliver that reply to a worker with no `message` listener, and it would be lost.
- The result crosses threads by `postMessage` structured clone, not by a text encoding. The only transfer rule modelled is that a payload with a `toString` function cannot be cloned.

A `Doc` lists the tags the compiler hands to handlers. The compiler passes a tag only when it has attributes or content, so an empty `<style></style>` is not in `Doc` and gets no style record.

When a component has several scripts of the same context, each one is handled as the compiler presents it. A later non-TypeScript script of that context then completes the record captured from an earlier TypeScript script.

## Model

| member | source | states |
|---|---|---|
| `Poll.Call` | src/index.ts:53-135 | The fast phase makes at most 200 polls and stops at the first check after the answer arrives. The slow phase runs only if the fast phase saw no answer; it makes at most 20 polls and also stops at the answer. With no answer, all 220 sleeps happen and the last good result (undefined at start) is returned and kept. A delivered result is returned and becomes the last good result. Listeners are all removed. |
| `Poll.LastKnownGood` | src/index.ts:124-134 | Over any run of calls, the returned value is the result of the latest call that brought one, or the initial value if none did. |
| `Poll.NothingBeforeFirstResult` | src/index.ts:40-134 | Starting with `lastResult` undefined, a run of calls returns undefined iff none of its calls brought a result. |
| `Poll.Heard` | src/index.ts:71-120 | The listener takes any `PREPROCESS_RESULT`, whatever request it answers. The replies are taken in delivery order. The call ends after the earliest sleep in which any reply is delivered, and keeps the last reply delivered during that sleep, since each message overwrites `result`. With nothing queued, it times out. |
| `Poll.StaleReplyReturned` | src/index.ts:71-134 | If the previous request's late reply is first in the queue, the call returns that reply as its own result. Its own reply is not looked at. |
| `Poll.CallMatched` | src/index.ts:53-135 | With the listener keeping only replies to its own request, a call returns the last good result or a reply to that request, never another request's. When no other request's reply is queued, it behaves as the code does. |
| `Poll.StaleReplyIgnored` | src/index.ts:71-134 | With replies matched to requests, the previous request's late reply is ignored. The call returns its own result if that arrives in time, else the last good result. |
| `Poll.TimeoutLikeFailure` | src/index.ts:102-128 | A timeout, a late answer and an answer without a result all return the last good result unchanged. |
| `Poll.PollCounts` | src/index.ts:16-19 | 2000/10 = 200 fast polls, 2000/100 = 20 slow polls, 220 in all. |
| `Entry.CallMain` | src/index.ts:145-163 | With the main worker, a failed preprocess is still answered. Polling ends at the answer, after `during + 1` sleeps (at most 220), and the last good result is returned unchanged. A successful preprocess is returned without `toString` and cached. |
| `Entry.CallScript` | src/worker/index.ts:36-48 | The worker script with the corrected, `toString`-stripped reply. A failed preprocess is never answered (no `catch`). On a runtime that keeps the worker alive after an unhandled rejection, the caller then waits all 220 sleeps and returns the last good result. A success is returned at the sleep it arrives, without `toString`. |
| `Entry.CallScriptAsWritten` | src/worker/index.ts:36-48 | As written, when the compiler output carries `toString`, nothing is posted. On a runtime that keeps the worker alive after an unhandled rejection, every call then waits all 220 sleeps and returns the last good result. |
| `Worker.PreprocessMain` | src/index.ts:200-318 | Fails iff a TypeScript script does not parse or the automatic group fails. Otherwise the result is the compiler output of the group's transformed component, without `toString`, plus the expected records. |
| `Worker.PreprocessScript` | src/worker/index.ts:50-133 | Same as above for the normalised caller chain, with the compiler output kept as it is. |
| `Worker.MainReply` | src/index.ts:150-163 | The main worker always answers. The payload is undefined exactly when parsing or the chain fails. |
| `Worker.ScriptReply` | src/worker/index.ts:36-48 | The worker script as written answers iff the preprocess succeeds and its output carries no `toString`, with that result. |
| `Worker.ScriptNeverAnswers` | src/worker/index.ts:126-132 | As written, if the compiler output carries `toString`, the worker script never answers. |
| `Worker.ScriptReplyStripped` | src/index.ts:308-317 | With `toString` stripped, the worker script answers exactly the successful runs, with the assembled result. |
| `Worker.ExampleInstanceRecord` | src/index.ts:229-300 | `<script lang="ts">let x=1</script>` compiled to `var x=1;` gives an instance record: original `let x=1`, result `var x=1;`, diff -1. No module or style record is made. The markup record keeps the component text unchanged, with diff 0. |
| `Bracket.BracketReply` | src/index.ts:225-227 | Both reply forms of a bracketing handler leave the region text unchanged: `{ code: content }` here, nothing in the worker script. |
| `Bracket.SingleGroupRunsAlone` | src/worker/index.ts:100 | A single group passed on its own transforms the component exactly as that group does. |
| `Bracket.SingleGroupIsOneElementArray` | src/worker/index.ts:100 | A single group and the one-element array of it build the same chain. |
| `Bracket.BuildChain` | src/worker/index.ts:60-122 | The chain is the caller's groups in order between exactly one capture step, first, and exactly one finalize step, last. |
| `Bracket.CaptureScript` | src/worker/index.ts:69-93 | Throws iff the script is TypeScript (`lang` is `ts` or `typescript`, or `type` is `text/typescript`) and does not parse. A non-TypeScript script changes nothing. A parsed one fills `module` when `context` is truthy, `instance` otherwise, and nothing else. The text passes unchanged. |
| `Bracket.CaptureScripts` | src/worker/index.ts:69-93 | Over all script tags, capture throws iff some TypeScript script does not parse. Otherwise each context's record holds the last TypeScript script of that context. |
| `Bracket.FinalizeScripts` | src/worker/index.ts:108-114 | Over all script tags, each captured record is completed by the last script of its context. |
| `Bracket.CaptureStep` | src/worker/index.ts:63-99 | The capture step keeps the component unchanged and fails iff a TypeScript script does not parse. It always makes the markup record. It makes a script record for a context iff a TypeScript script of that context exists (the last one), and a style record iff a style tag exists (the last one), all from the original text. |
| `Bracket.FinalizeStep` | src/worker/index.ts:101-121 | The finalize step keeps the component unchanged and completes every captured record with the final text. |
| `Bracket.MiddleChain` | src/worker/index.ts:100 | The caller's part of the chain never touches the records. It transforms the component exactly as the groups do on their own. |
| `Bracket.Bracketing` | src/worker/index.ts:60-124 | The bracketed chain fails iff a TypeScript script does not parse or the caller's groups fail. Otherwise it yields the groups' own output plus the records built from the original and final text. |
| `Bracket.MarkupRecord` | src/worker/index.ts:64-107 | The markup record always holds the component text before and after the caller's markup handlers, and their length difference. Script and style changes never reach it. |
| `Bracket.ScriptRecord` | src/worker/index.ts:69-114 | A context's record exists iff a TypeScript script of that context exists. It holds the last such script's tree and original text, plus the final text of the last script of that context. |
| `Bracket.StyleRecord` | src/worker/index.ts:94-120 | The style record exists iff there is a style tag. It pairs the last style's original and final text. |
| `Bracket.SingleInstanceScript` | src/index.ts:229-290 | For one TypeScript script without `context`, the instance record pairs its original and final text, and no module record is made. |
| `Log.PartShapes` | src/index.ts:170-194 | A number is its canonical decimal text: it reads back as the same number, starts with `-` iff negative, and has no leading zero except `0` itself. A string is itself. `null` is `null`. An array is `[`, its elements joined by `, `, then `]`, where `null` and `undefined` elements are empty and the others are `String` of themselves. An Error is `name: message`, a newline, then its stack when it has one. Undefined, booleans and plain objects are `undefined`. |
| `Log.NumberRoundTrip` | src/index.ts:172-173 | `String(n)` of an integer parses back to `n`. |
| `Log.LogAppend` | src/index.ts:195-197 | Logging `a` then `b` is the log of `a`, one space, then the log of `b`. |
| `Log.LogSplitsIntoParts` | src/index.ts:169-197 | When no part contains a space, splitting the line at spaces gives one part per argument, in order. |

## Left out

- `Entry.CallMain`: pairs each call with the reply to its own request. The code's listener accepts whichever reply comes first, which after a timeout is the late reply to the earlier request. That case is modelled on its own by `Poll.Heard`, `Poll.StaleReplyReturned` and `Poll.CallMatched`.
- `Entry.CallScript` and `Entry.CallScriptAsWritten` pair the caller in src/index.ts with the stand-alone worker script. No code does this: the caller starts a worker on its own file and sends `autoPreprocessConfig`, while the script reads `preprocessors`. Also, no caller could post a group carrying handler functions to the script, because structured clone refuses functions. So `ps` with handlers is hypothetical too. The pairing shows what the script's reply would mean to a caller like that one.
- `Entry.CallScript`: takes "no reply" as the only outcome of a rejected handler in the worker script. Since Node 15, an unhandled rejection ends the worker thread by default, and the `Worker` emits `'error'`. The caller registers no `'error'` listener, so on such a runtime it would throw instead of timing out. That outcome is not modelled; the same holds for `Entry.CallScriptAsWritten`.
- Worker creation, the `isMainThread` dispatch, and the mechanics of `postMessage`, `on` and `removeAllListeners` are not modelled. The reply is an arrival (the sleep during which it is delivered, and its payload), and the listeners are a count.
- Real time and `deasync.sleep` are not modelled: a sleep is one counted step.
- The caller's handling of `LOG` messages (printing them) and every `console.log` are left out. They do not affect the result.
- Svelte's `preprocess` is foreign. It is abstracted as a run over a component of independent regions: the markup text, the script tags and the style tags. Each step of the chain visits, in order, the markup, each script tag, then each style tag, and a handler that throws makes the whole run fail. Svelte instead runs every step's markup handler first, then every script handler, then every style handler. The regions are independent in this abstraction, so the order does not change the outcome. One consequence: the finalize step's markup handler runs before any script or style handler, so the markup record's final text never includes script or style changes. Not modelled: a markup preprocessor that rewrites the script or style tags inside the text, attribute rewriting, source maps, and how the compiler collects dependencies. The final `code` and `dependencies` come from a parameter `emit`.
- The TypeScript parser is the parameter `parse` (`None` when it throws). The automatic preprocessor group built from its configuration is the parameter `auto`.
- Structured clone is modelled only as "a payload with a `toString` function cannot be cloned".
- `Bracket.Diff` counts characters; JavaScript's `length` counts UTF-16 code units. They differ for characters outside the Basic Multilingual Plane.
- `Log.PartShapes`: numbers are only the safe integers. Fractions, `NaN`, `Infinity`, `-0` and magnitudes of 10^21 or more, which `String` writes differently, are left out.
- `Log.PartShapes`: functions, symbols and bigints are not in the value type; like booleans, they would give `undefined`. A non-array object with a numeric `length` is also left out, because calling `join` on it throws. So is an Error with a numeric `length`, which the formatter would treat as an array.
- An exception thrown by `log` itself is not modelled.

## Findings

| source | as written | input that shows it | evidently intended | confidence | as-written member | corrected member |
|---|---|---|---|---|---|---|
| src/worker/index.ts:126-132 | The stand-alone worker script posts the compiler output with its own `toString` function still attached. | Any component the chain preprocesses successfully, when the compiler output carries `toString` (the main file deletes it because it is "not clonable", src/index.ts:308-309). `postMessage` then throws, so no answer is sent. On a runtime that keeps the worker alive after an unhandled rejection, every call times out. | Strip `toString` before posting, as the main file does. End to end, a caller of the corrected script then gets each success (`Entry.CallScript`). | medium, not executed | `Worker.ScriptNeverAnswers` | `Worker.ScriptReplyStripped` |
| src/index.ts:71-122 | The listener takes any `PREPROCESS_RESULT`, with no check of which request it answers. After a call times out, the worker's late reply stays queued, provided the host does not return to the event loop between calls, as a synchronous ESLint run does not. The next call's listener receives it first and returns it, then caches it as `lastResult`. | One call times out on file A. The next call, on file B, starts with A's reply queued and gets B's reply later (k > 0 sleeps on). It returns A's result. | Tag each request with a number, echo it in the reply, and have the listener ignore replies to other requests. | medium, not executed | `Poll.StaleReplyReturned` | `Poll.CallMatched` |

=== FILE: bracket.dfy ===
/** Region bracketing around the preprocessor chain.

    The compiler's `preprocess` runs a chain of preprocessor groups over a
    component. Each group may carry a handler for the markup (the whole
    component text), for every `<script>` tag and for every `<style>` tag.
    The bridge wraps the caller's chain between a capture step, which
    records each region's original text, and a finalize step, which records
    the region's final text and the size difference.

    The compiler itself is foreign: here it is abstracted to a document of
    independent regions that every step of the chain visits in order (the
    markup, then each script tag, then each style tag). The compiler runs
    all markup handlers before any script or style handler; with the
    regions independent, the outcome is the same, and the markup record
    never sees what the script and style handlers do. */
module Bracket {
  import opened Types

  /** An attribute as the compiler parses it: a bare attribute is `true`,
      otherwise it is the value text with its quotes removed. */
  datatype AttrValue = Flag | Text(text: string)

  type Attributes = map<string, AttrValue>

  /** `attributes[name] === value` for a string `value`. */
  predicate HasText(a: Attributes, name: string, value: string)
  {
    name in a && a[name] == Text(value)
  }

  /** JavaScript truthiness of `attributes[name]`: present and not the empty string. */
  predicate IsTruthy(a: Attributes, name: string)
  {
    name in a && (a[name].Flag? || a[name].text != "")
  }

  /** The three spellings of a TypeScript script the bridge supports. */
  predicate IsTypeScript(a: Attributes)
  {
    HasText(a, "lang", "ts") || HasText(a, "lang", "typescript") || HasText(a, "type", "text/typescript")
  }

  /** A script with a truthy `context` attribute is the module script. */
  predicate IsModuleContext(a: Attributes)
  {
    IsTruthy(a, "context")
  }

  datatype Tag = Tag(attributes: Attributes, content: string)

  /** A component as the chain sees it. */
  datatype Doc = Doc(markup: string, scripts: seq<Tag>, styles: seq<Tag>)

  datatype Kind = MarkupKind | ScriptKind | StyleKind

  /** What a handler gives back: `{ code }`, nothing at all, or an exception. */
  datatype Processed = Code(code: string) | NoResult | Throws

  /** What a handler receives. The markup handler receives no attributes. */
  datatype Input = Input(content: string, attributes: Attributes, filename: string)

  type Handler = Input -> Processed

  /** A preprocessor group: an optional handler per region kind. */
  datatype Group = Group(markup: Option<Handler>, script: Option<Handler>, style: Option<Handler>)
  {
    function For(kind: Kind): Option<Handler>
    {
      match kind
      case MarkupKind => markup
      case ScriptKind => script
      case StyleKind => style
    }
  }

  /** The caller may hand over one group or an array of groups. */
  datatype Preprocessors = Single(group: Group) | Many(groups: seq<Group>)

  /** How the bracketing handlers answer: `{ code: content }` in the main
      thread's copy, nothing in the worker script's copy. */
  datatype Echo = ReturnsCode | ReturnsNothing

  datatype Step = Capture(echo: Echo) | Middle(group: Group) | Finalize(echo: Echo)

  /** The per-region records the bracketing handlers fill in. */
  datatype Slots = Slots(markup: Option<Markup>, moduleScript: Option<Script>, instance: Option<Script>, style: Option<Style>)

  const Empty: Slots := Slots(None, None, None, None)

  /** The compiler's rule for a handler's answer: `processed ? processed.code : content`. */
  function Apply(p: Processed, content: string): Option<string>
  {
    match p
    case Code(c) => Some(c)
    case NoResult => Some(content)
    case Throws => None
  }

  /** A missing handler leaves the region as it is. */
  function Invoke(h: Option<Handler>, input: Input): Processed
  {
    match h
    case None => NoResult
    case Some(f) => f(input)
  }

  /** Both ways a bracketing handler answers leave the region text unchanged. */
  function BracketReply(e: Echo, content: string): (p: Processed)
    ensures Apply(p, content) == Some(content)
  {
    match e
    case ReturnsCode => Code(content)
    case ReturnsNothing => NoResult
  }

  /** `original.length - result.length`. */
  function Diff(original: string, result: string): int
  {
    |original| - |result|
  }

  /** Normalisation of the caller's chain: an array is used as it is, a single group becomes a one-element list. */
  function Normalize(p: Preprocessors): (r: seq<Group>)
    ensures p.Many? ==> r == p.groups
    ensures p.Single? ==> |r| == 1 && r[0] == p.group
  {
    match p
    case Single(g) => [g]
    case Many(gs) => gs
  }

  function Middles(gs: seq<Group>): (r: seq<Step>)
    ensures |r| == |gs|
    ensures forall i :: 0 <= i < |gs| ==> r[i] == Middle(gs[i])
  {
    seq(|gs|, i requires 0 <= i < |gs| => Middle(gs[i]))
  }

  function CountCaptures(chain: seq<Step>): nat
  {
    if |chain| == 0 then 0 else (if chain[0].Capture? then 1 else 0) + CountCaptures(chain[1..])
  }

  function CountFinalizes(chain: seq<Step>): nat
  {
    if |chain| == 0 then 0 else (if chain[0].Finalize? then 1 else 0) + CountFinalizes(chain[1..])
  }

  lemma {:induction false} CountsOfMiddles(gs: seq<Group>)
    ensures CountCaptures(Middles(gs)) == 0 && CountFinalizes(Middles(gs)) == 0
    decreases |gs|
  {
    if |gs| > 0 {
      assert Middles(gs)[1..] == Middles(gs[1..]);
      CountsOfMiddles(gs[1..]);
    }
  }

  lemma {:induction false} CountsOfAppend(a: seq<Step>, b: seq<Step>)
    ensures CountCaptures(a + b) == CountCaptures(a) + CountCaptures(b)
    ensures CountFinalizes(a + b) == CountFinalizes(a) + CountFinalizes(b)
    decreases |a|
  {
    if |a| > 0 {
      assert (a + b)[1..] == a[1..] + b;
      CountsOfAppend(a[1..], b);
    } else {
      assert a + b == b;
    }
  }

  /** The full chain: one capture step, the caller's groups in order, one finalize step. */
  function BuildChain(e: Echo, middle: seq<Group>): (chain: seq<Step>)
    ensures |chain| == |middle| + 2
    ensures chain[0] == Capture(e) && chain[|chain| - 1] == Finalize(e)
    ensures forall i :: 0 <= i < |middle| ==> chain[i + 1] == Middle(middle[i])
    ensures CountCaptures(chain) == 1 && CountFinalizes(chain) == 1
  {
    var chain := [Capture(e)] + Middles(middle) + [Finalize(e)];
    CountsOfMiddles(middle);
    CountsOfAppend([Capture(e)], Middles(middle));
    CountsOfAppend([Capture(e)] + Middles(middle), [Finalize(e)]);
    chain
  }

  /** A single group and a one-element array of it give the same chain. */
  lemma SingleGroupIsOneElementArray(e: Echo, g: Group)
    ensures BuildChain(e, Normalize(Single(g))) == BuildChain(e, Normalize(Many([g])))
  {
  }

  /** A single group passed on its own is run exactly as that group alone. */
  lemma SingleGroupRunsAlone(g: Group, filename: string, d: Doc)
    ensures ApplyGroups(Normalize(Single(g)), filename, d) == ApplyGroup(g, filename, d)
  {
    assert Normalize(Single(g))[1..] == [];
  }

  // ---------------------------------------------------------------------
  // The bracketing handlers

  function CaptureMarkup(s: Slots, content: string): (r: Slots)
    ensures r.markup == Some(Markup(content, None, None))
    ensures r.moduleScript == s.moduleScript && r.instance == s.instance && r.style == s.style
  {
    s.(markup := Some(Markup(content, None, None)))
  }

  function CaptureStyle(s: Slots, content: string): (r: Slots)
    ensures r.style == Some(Style(content, None, None))
    ensures r.markup == s.markup && r.moduleScript == s.moduleScript && r.instance == s.instance
  {
    s.(style := Some(Style(content, None, None)))
  }

  /** The capture handler for one script tag: only a TypeScript script is
      parsed and recorded, in the slot its `context` selects; a parse
      failure is an exception. */
  function CaptureScript(e: Echo, parse: string -> Option<Ast>, s: Slots, input: Input): (r: (Slots, Processed))
    ensures r.1 == Throws <==> IsTypeScript(input.attributes) && parse(input.content).None?
    ensures r.1 != Throws ==> Apply(r.1, input.content) == Some(input.content)
    ensures !IsTypeScript(input.attributes) ==> r.0 == s
    ensures r.0.markup == s.markup && r.0.style == s.style
    ensures IsModuleContext(input.attributes) ==> r.0.instance == s.instance
    ensures !IsModuleContext(input.attributes) ==> r.0.moduleScript == s.moduleScript
    ensures IsTypeScript(input.attributes) && parse(input.content).Some? ==>
      var captured := Some(Script(parse(input.content).value, input.content, "ts", None, None));
      if IsModuleContext(input.attributes) then r.0.moduleScript == captured else r.0.instance == captured
  {
    if !IsTypeScript(input.attributes) then
      (s, BracketReply(e, input.content))
    else
      match parse(input.content)
      case None => (s, Throws)
      case Some(ast) =>
        var obj := Script(ast, input.content, "ts", None, None);
        if IsModuleContext(input.attributes) then
          (s.(moduleScript := Some(obj)), BracketReply(e, input.content))
        else
          (s.(instance := Some(obj)), BracketReply(e, input.content))
  }

  function FinishMarkup(m: Option<Markup>, content: string): (r: Option<Markup>)
    ensures r.Some? <==> m.Some?
    ensures r.Some? ==> r.value == m.value.(result := Some(content), diff := Some(Diff(m.value.original, content)))
  {
    match m
    case None => None
    case Some(x) => Some(x.(result := Some(content), diff := Some(Diff(x.original, content))))
  }

  function FinishScript(m: Option<Script>, content: string): (r: Option<Script>)
    ensures r.Some? <==> m.Some?
    ensures r.Some? ==> r.value == m.value.(result := Some(content), diff := Some(Diff(m.value.original, content)))
  {
    match m
    case None => None
    case Some(x) => Some(x.(result := Some(content), diff := Some(Diff(x.original, content))))
  }

  function FinishStyle(m: Option<Style>, content: string): (r: Option<Style>)
    ensures r.Some? <==> m.Some?
    ensures r.Some? ==> r.value == m.value.(result := Some(content), diff := Some(Diff(m.value.original, content)))
  {
    match m
    case None => None
    case Some(x) => Some(x.(result := Some(content), diff := Some(Diff(x.original, content))))
  }

  /** The finalize handler for one script tag: completes whichever slot the
      tag's `context` selects, if that slot was captured. */
  function FinalizeScript(s: Slots, input: Input): (r: Slots)
    ensures r.markup == s.markup && r.style == s.style
    ensures IsModuleContext(input.attributes) ==> r.instance == s.instance && r.moduleScript == FinishScript(s.moduleScript, input.content)
    ensures !IsModuleContext(input.attributes) ==> r.moduleScript == s.moduleScript && r.instance == FinishScript(s.instance, input.content)
  {
    if IsModuleContext(input.attributes) then
      s.(moduleScript := FinishScript(s.moduleScript, input.content))
    else
      s.(instance := FinishScript(s.instance, input.content))
  }

  /** One handler of one step on one region: the new slots and the handler's answer. */
  function Handle(step: Step, kind: Kind, parse: string -> Option<Ast>, s: Slots, input: Input): (Slots, Processed)
  {
    match step
    case Middle(g) => (s, Invoke(g.For(kind), input))
    case Capture(e) =>
      (match kind
       case MarkupKind => (CaptureMarkup(s, input.content), BracketReply(e, input.content))
       case ScriptKind => CaptureScript(e, parse, s, input)
       case StyleKind => (CaptureStyle(s, input.content), BracketReply(e, input.content)))
    case Finalize(e) =>
      (match kind
       case MarkupKind => (s.(markup := FinishMarkup(s.markup, input.content)), BracketReply(e, input.content))
       case ScriptKind => (FinalizeScript(s, input), BracketReply(e, input.content))
       case StyleKind => (s.(style := FinishStyle(s.style, input.content)), BracketReply(e, input.content)))
  }

  // ---------------------------------------------------------------------
  // The compiler's run of a chain

  predicate SameAttributes(a: seq<Tag>, b: seq<Tag>)
  {
    |a| == |b| && forall i :: 0 <= i < |a| ==> a[i].attributes == b[i].attributes
  }

  /** The chain changes region text only: the same tags with the same attributes remain. */
  predicate SameShape(d: Doc, d': Doc)
  {
    SameAttributes(d.scripts, d'.scripts) && SameAttributes(d.styles, d'.styles)
  }

  /** One step over the tags of one kind, first to last. */
  function RunTags(step: Step, kind: Kind, filename: string, parse: string -> Option<Ast>, s: Slots, tags: seq<Tag>): (r: Option<(Slots, seq<Tag>)>)
    ensures r.Some? ==> SameAttributes(tags, r.value.1)
    decreases |tags|
  {
    if |tags| == 0 then Some((s, []))
    else
      match RunTags(step, kind, filename, parse, s, tags[..|tags| - 1])
      case None => None
      case Some((s1, done)) =>
        var t := tags[|tags| - 1];
        var (s2, p) := Handle(step, kind, parse, s1, Input(t.content, t.attributes, filename));
        match Apply(p, t.content)
        case None => None
        case Some(c) => Some((s2, done + [Tag(t.attributes, c)]))
  }

  /** One step over the component: the markup, then each script, then each style. */
  function RunStep(step: Step, filename: string, parse: string -> Option<Ast>, s: Slots, d: Doc): (r: Option<(Slots, Doc)>)
    ensures r.Some? ==> SameShape(d, r.value.1)
  {
    var (s1, pm) := Handle(step, MarkupKind, parse, s, Input(d.markup, map[], filename));
    match Apply(pm, d.markup)
    case None => None
    case Some(m) =>
      match RunTags(step, ScriptKind, filename, parse, s1, d.scripts)
      case None => None
      case Some((s2, scripts)) =>
        match RunTags(step, StyleKind, filename, parse, s2, d.styles)
        case None => None
        case Some((s3, styles)) => Some((s3, Doc(m, scripts, styles)))
  }

  /** The compiler's run of a whole chain; `None` when any handler throws. */
  function RunChain(chain: seq<Step>, filename: string, parse: string -> Option<Ast>, s: Slots, d: Doc): (r: Option<(Slots, Doc)>)
    ensures r.Some? ==> SameShape(d, r.value.1)
    decreases |chain|
  {
    if |chain| == 0 then Some((s, d))
    else
      match RunStep(chain[0], filename, parse, s, d)
      case None => None
      case Some((s1, d1)) => RunChain(chain[1..], filename, parse, s1, d1)
  }

  // ---------------------------------------------------------------------
  // Reference definitions

  /** The caller's groups applied on their own, with no bracketing. */
  function MapTags(h: Option<Handler>, filename: string, tags: seq<Tag>): Option<seq<Tag>>
    decreases |tags|
  {
    if |tags| == 0 then Some([])
    else
      match MapTags(h, filename, tags[..|tags| - 1])
      case None => None
      case Some(done) =>
        var t := tags[|tags| - 1];
        match Apply(Invoke(h, Input(t.content, t.attributes, filename)), t.content)
        case None => None
        case Some(c) => Some(done + [Tag(t.attributes, c)])
  }

  function ApplyGroup(g: Group, filename: string, d: Doc): Option<Doc>
  {
    match Apply(Invoke(g.markup, Input(d.markup, map[], filename)), d.markup)
    case None => None
    case Some(m) =>
      match MapTags(g.script, filename, d.scripts)
      case None => None
      case Some(scripts) =>
        match MapTags(g.style, filename, d.styles)
        case None => None
        case Some(styles) => Some(Doc(m, scripts, styles))
  }

  function ApplyGroups(gs: seq<Group>, filename: string, d: Doc): Option<Doc>
    decreases |gs|
  {
    if |gs| == 0 then Some(d)
    else
      match ApplyGroup(gs[0], filename, d)
      case None => None
      case Some(d1) => ApplyGroups(gs[1..], filename, d1)
  }

  /** Every TypeScript script parses. */
  predicate ParsesAll(tags: seq<Tag>, parse: string -> Option<Ast>)
  {
    forall i :: 0 <= i < |tags| && IsTypeScript(tags[i].attributes) ==> parse(tags[i].content).Some?
  }

  /** Which tags a bracketing handler acts on: the capture step takes
      TypeScript scripts of one context, the finalize step every script of
      one context, and both take every style. */
  datatype Selector = Captured(ctx: bool) | Selected(ctx: bool) | AnyTag

  predicate Matches(sel: Selector, a: Attributes)
  {
    match sel
    case Captured(ctx) => IsTypeScript(a) && IsModuleContext(a) == ctx
    case Selected(ctx) => IsModuleContext(a) == ctx
    case AnyTag => true
  }

  /** The index of the last tag the selector matches. */
  function LastIndex(tags: seq<Tag>, sel: Selector): (r: Option<nat>)
    ensures r.Some? ==> r.value < |tags| && Matches(sel, tags[r.value].attributes)
    ensures r.Some? ==> forall j :: r.value < j < |tags| ==> !Matches(sel, tags[j].attributes)
    ensures r.None? ==> forall j :: 0 <= j < |tags| ==> !Matches(sel, tags[j].attributes)
    decreases |tags|
  {
    if |tags| == 0 then None
    else if Matches(sel, tags[|tags| - 1].attributes) then Some(|tags| - 1)
    else LastIndex(tags[..|tags| - 1], sel)
  }

  /** The slot the capture step leaves for one context: the last TypeScript script of that context, else what was there. */
  function CapturedSlot(tags: seq<Tag>, ctx: bool, parse: string -> Option<Ast>, prior: Option<Script>): Option<Script>
    requires ParsesAll(tags, parse)
  {
    match LastIndex(tags, Captured(ctx))
    case None => prior
    case Some(i) => Some(Script(parse(tags[i].content).value, tags[i].content, "ts", None, None))
  }

  /** The slot the finalize step leaves for one context: completed by the last script of that context. */
  function FinalSlot(slot: Option<Script>, tags: seq<Tag>, ctx: bool): Option<Script>
  {
    match LastIndex(tags, Selected(ctx))
    case None => slot
    case Some(j) => FinishScript(slot, tags[j].content)
  }

  function CapturedStyle(tags: seq<Tag>, prior: Option<Style>): Option<Style>
  {
    match LastIndex(tags, AnyTag)
    case None => prior
    case Some(i) => Some(Style(tags[i].content, None, None))
  }

  function FinalStyle(slot: Option<Style>, tags: seq<Tag>): Option<Style>
  {
    match LastIndex(tags, AnyTag)
    case None => slot
    case Some(j) => FinishStyle(slot, tags[j].content)
  }

  /** The slots the bracketed chain must produce for the original component `d` and its transformed form `d'`. */
  function Expected(d: Doc, d': Doc, parse: string -> Option<Ast>): Slots
    requires ParsesAll(d.scripts, parse)
  {
    Slots(
      FinishMarkup(Some(Markup(d.markup, None, None)), d'.markup),
      FinalSlot(CapturedSlot(d.scripts, true, parse, None), d'.scripts, true),
      FinalSlot(CapturedSlot(d.scripts, false, parse, None), d'.scripts, false),
      FinalStyle(CapturedStyle(d.styles, None), d'.styles))
  }

  // ---------------------------------------------------------------------
  // Lemmas

  /** Running `a + b` is running `a`, then `b` from where `a` stopped. */
  lemma {:induction false} RunChainAppend(a: seq<Step>, b: seq<Step>, filename: string, parse: string -> Option<Ast>, s: Slots, d: Doc)
    ensures RunChain(a + b, filename, parse, s, d) ==
      match RunChain(a, filename, parse, s, d)
      case None => None
      case Some((s1, d1)) => RunChain(b, filename, parse, s1, d1)
    decreases |a|
  {
    if |a| > 0 {
      assert (a + b)[0] == a[0];
      assert (a + b)[1..] == a[1..] + b;
      match RunStep(a[0], filename, parse, s, d)
      case None =>
      case Some((s1, d1)) => RunChainAppend(a[1..], b, filename, parse, s1, d1);
    } else {
      assert a + b == b;
    }
  }

  /** Running one kind's handler over `init + [t]` is running it over `init`, then on `t`. */
  lemma RunTagsLast(step: Step, kind: Kind, filename: string, parse: string -> Option<Ast>, s: Slots, init: seq<Tag>, t: Tag)
    ensures RunTags(step, kind, filename, parse, s, init + [t]) ==
      match RunTags(step, kind, filename, parse, s, init)
      case None => None
      case Some((s1, done)) =>
        var (s2, p) := Handle(step, kind, parse, s1, Input(t.content, t.attributes, filename));
        match Apply(p, t.content)
        case None => None
        case Some(c) => Some((s2, done + [Tag(t.attributes, c)]))
  {
    var tags := init + [t];
    assert tags[..|tags| - 1] == init;
    assert tags[|tags| - 1] == t;
  }

  /** The last match in `init + [t]` is `t` when it matches, else the last match in `init`. */
  lemma LastIndexLast(init: seq<Tag>, t: Tag, sel: Selector)
    ensures LastIndex(init + [t], sel) == if Matches(sel, t.attributes) then Some(|init|) else LastIndex(init, sel)
  {
    var tags := init + [t];
    assert tags[..|tags| - 1] == init;
    assert tags[|tags| - 1] == t;
  }

  /** A step of the caller's chain leaves the slots alone and transforms the tags as the group alone does. */
  lemma {:induction false} MiddleTags(g: Group, kind: Kind, filename: string, parse: string -> Option<Ast>, s: Slots, tags: seq<Tag>)
    ensures RunTags(Middle(g), kind, filename, parse, s, tags) ==
      match MapTags(g.For(kind), filename, tags)
      case None => None
      case Some(ts) => Some((s, ts))
    decreases |tags|
  {
    if |tags| > 0 {
      MiddleTags(g, kind, filename, parse, s, tags[..|tags| - 1]);
    }
  }

  lemma MiddleStep(g: Group, filename: string, parse: string -> Option<Ast>, s: Slots, d: Doc)
    ensures RunStep(Middle(g), filename, parse, s, d) ==
      match ApplyGroup(g, filename, d)
      case None => None
      case Some(d1) => Some((s, d1))
  {
    MiddleTags(g, ScriptKind, filename, parse, s, d.scripts);
    MiddleTags(g, StyleKind, filename, parse, s, d.styles);
  }

  /** The caller's part of the chain never touches the slots and transforms the component exactly as the groups alone do. */
  lemma {:induction false} MiddleChain(gs: seq<Group>, filename: string, parse: string -> Option<Ast>, s: Slots, d: Doc)
    ensures RunChain(Middles(gs), filename, parse, s, d) ==
      match ApplyGroups(gs, filename, d)
      case None => None
      case Some(d1) => Some((s, d1))
    decreases |gs|
  {
    if |gs| > 0 {
      assert Middles(gs)[1..] == Middles(gs[1..]);
      MiddleStep(gs[0], filename, parse, s, d);
      match ApplyGroup(gs[0], filename, d)
      case None =>
      case Some(d1) => MiddleChain(gs[1..], filename, parse, s, d1);
    }
  }

  /** Capturing one more script tag moves each record to the last TypeScript script of its context. */
  lemma CaptureNextScript(e: Echo, filename: string, parse: string -> Option<Ast>, s: Slots, init: seq<Tag>, t: Tag)
    requires ParsesAll(init + [t], parse)
    ensures ParsesAll(init, parse)
    ensures
      var tags := init + [t];
      var s1 := s.(moduleScript := CapturedSlot(init, true, parse, s.moduleScript), instance := CapturedSlot(init, false, parse, s.instance));
      CaptureScript(e, parse, s1, Input(t.content, t.attributes, filename)) ==
        (s.(moduleScript := CapturedSlot(tags, true, parse, s.moduleScript), instance := CapturedSlot(tags, false, parse, s.instance)),
         BracketReply(e, t.content))
  {
    var tags := init + [t];
    assert tags[..|tags| - 1] == init;
    assert tags[|tags| - 1] == t;
    forall i | 0 <= i < |init| && IsTypeScript(init[i].attributes)
      ensures parse(init[i].content).Some?
    {
      assert tags[i] == init[i];
    }
    assert IsTypeScript(t.attributes) ==> parse(t.content).Some? by {
      assert tags[|tags| - 1] == t;
    }
  }

  /** The capture step over the script tags records the last TypeScript script of each context, and throws iff some TypeScript script fails to parse. */
  lemma {:induction false} CaptureScripts(e: Echo, filename: string, parse: string -> Option<Ast>, s: Slots, tags: seq<Tag>)
    ensures RunTags(Capture(e), ScriptKind, filename, parse, s, tags) ==
      if ParsesAll(tags, parse) then
        Some((s.(moduleScript := CapturedSlot(tags, true, parse, s.moduleScript), instance := CapturedSlot(tags, false, parse, s.instance)), tags))
      else None
    decreases |tags|
  {
    if |tags| > 0 {
      var init := tags[..|tags| - 1];
      var t := tags[|tags| - 1];
      assert tags == init + [t];
      CaptureScripts(e, filename, parse, s, init);
      var input := Input(t.content, t.attributes, filename);
      if ParsesAll(tags, parse) {
        CaptureNextScript(e, filename, parse, s, init, t);
        var s1 := s.(moduleScript := CapturedSlot(init, true, parse, s.moduleScript), instance := CapturedSlot(init, false, parse, s.instance));
        assert RunTags(Capture(e), ScriptKind, filename, parse, s, init) == Some((s1, init));
        assert Handle(Capture(e), ScriptKind, parse, s1, input) == CaptureScript(e, parse, s1, input);
        assert init + [Tag(t.attributes, t.content)] == tags;
      } else if ParsesAll(init, parse) {
        var s1 := s.(moduleScript := CapturedSlot(init, true, parse, s.moduleScript), instance := CapturedSlot(init, false, parse, s.instance));
        assert RunTags(Capture(e), ScriptKind, filename, parse, s, init) == Some((s1, init));
        var i :| 0 <= i < |tags| && IsTypeScript(tags[i].attributes) && parse(tags[i].content).None?;
        assert i == |tags| - 1;
        assert CaptureScript(e, parse, s1, input).1 == Throws;
      }
    }
  }

  lemma {:induction false} CaptureStyles(e: Echo, filename: string, parse: string -> Option<Ast>, s: Slots, tags: seq<Tag>)
    ensures RunTags(Capture(e), StyleKind, filename, parse, s, tags) == Some((s.(style := CapturedStyle(tags, s.style)), tags))
    decreases |tags|
  {
    if |tags| > 0 {
      var init := tags[..|tags| - 1];
      var t := tags[|tags| - 1];
      assert tags == init + [t];
      CaptureStyles(e, filename, parse, s, init);
      RunTagsLast(Capture(e), StyleKind, filename, parse, s, init, t);
      LastIndexLast(init, t, AnyTag);
      var s1 := s.(style := CapturedStyle(init, s.style));
      assert Handle(Capture(e), StyleKind, parse, s1, Input(t.content, t.attributes, filename)) ==
        (CaptureStyle(s1, t.content), BracketReply(e, t.content));
      assert init + [Tag(t.attributes, t.content)] == tags;
    }
  }

  /** Finishing an already finished record again keeps only the last text. */
  lemma FinishScriptTwice(m: Option<Script>, a: string, b: string)
    ensures FinishScript(FinishScript(m, a), b) == FinishScript(m, b)
  {
  }

  lemma {:induction false} FinalizeScripts(e: Echo, filename: string, parse: string -> Option<Ast>, s: Slots, tags: seq<Tag>)
    ensures RunTags(Finalize(e), ScriptKind, filename, parse, s, tags) ==
      Some((s.(moduleScript := FinalSlot(s.moduleScript, tags, true), instance := FinalSlot(s.instance, tags, false)), tags))
    decreases |tags|
  {
    if |tags| > 0 {
      var init := tags[..|tags| - 1];
      var t := tags[|tags| - 1];
      assert tags == init + [t];
      FinalizeScripts(e, filename, parse, s, init);
      RunTagsLast(Finalize(e), ScriptKind, filename, parse, s, init, t);
      LastIndexLast(init, t, Selected(true));
      LastIndexLast(init, t, Selected(false));
      var s1 := s.(moduleScript := FinalSlot(s.moduleScript, init, true), instance := FinalSlot(s.instance, init, false));
      var input := Input(t.content, t.attributes, filename);
      assert Handle(Finalize(e), ScriptKind, parse, s1, input) == (FinalizeScript(s1, input), BracketReply(e, t.content));
      assert init + [Tag(t.attributes, t.content)] == tags;
      if IsModuleContext(t.attributes) {
        match LastIndex(init, Selected(true))
        case None =>
        case Some(j) => FinishScriptTwice(s.moduleScript, init[j].content, t.content);
      } else {
        match LastIndex(init, Selected(false))
        case None =>
        case Some(j) => FinishScriptTwice(s.instance, init[j].content, t.content);
      }
    }
  }

  lemma {:induction false} FinalizeStyles(e: Echo, filename: string, parse: string -> Option<Ast>, s: Slots, tags: seq<Tag>)
    ensures RunTags(Finalize(e), StyleKind, filename, parse, s, tags) == Some((s.(style := FinalStyle(s.style, tags)), tags))
    decreases |tags|
  {
    if |tags| > 0 {
      var init := tags[..|tags| - 1];
      var t := tags[|tags| - 1];
      assert tags == init + [t];
      FinalizeStyles(e, filename, parse, s, init);
      RunTagsLast(Finalize(e), StyleKind, filename, parse, s, init, t);
      LastIndexLast(init, t, AnyTag);
      var s1 := s.(style := FinalStyle(s.style, init));
      assert Handle(Finalize(e), StyleKind, parse, s1, Input(t.content, t.attributes, filename)) ==
        (s1.(style := FinishStyle(s1.style, t.content)), BracketReply(e, t.content));
      assert init + [Tag(t.attributes, t.content)] == tags;
    }
  }

  /** The capture step leaves the component unchanged and records every region, failing iff a TypeScript script does not parse. */
  lemma CaptureStep(e: Echo, filename: string, parse: string -> Option<Ast>, d: Doc)
    ensures RunStep(Capture(e), filename, parse, Empty, d) ==
      if ParsesAll(d.scripts, parse) then
        Some((Slots(Some(Markup(d.markup, None, None)), CapturedSlot(d.scripts, true, parse, None),
                    CapturedSlot(d.scripts, false, parse, None), CapturedStyle(d.styles, None)), d))
      else None
  {
    var s1 := CaptureMarkup(Empty, d.markup);
    CaptureScripts(e, filename, parse, s1, d.scripts);
    if ParsesAll(d.scripts, parse) {
      var s2 := s1.(moduleScript := CapturedSlot(d.scripts, true, parse, None), instance := CapturedSlot(d.scripts, false, parse, None));
      CaptureStyles(e, filename, parse, s2, d.styles);
    }
  }

  /** The finalize step leaves the component unchanged and completes every captured record with its region's final text. */
  lemma FinalizeStep(e: Echo, filename: string, parse: string -> Option<Ast>, s: Slots, d: Doc)
    ensures RunStep(Finalize(e), filename, parse, s, d) ==
      Some((Slots(FinishMarkup(s.markup, d.markup), FinalSlot(s.moduleScript, d.scripts, true),
                  FinalSlot(s.instance, d.scripts, false), FinalStyle(s.style, d.styles)), d))
  {
    var s1 := s.(markup := FinishMarkup(s.markup, d.markup));
    FinalizeScripts(e, filename, parse, s1, d.scripts);
    var s2 := s1.(moduleScript := FinalSlot(s.moduleScript, d.scripts, true), instance := FinalSlot(s.instance, d.scripts, false));
    FinalizeStyles(e, filename, parse, s2, d.styles);
  }

  /** The bracketing theorem: the bracketed chain fails iff a TypeScript
      script does not parse or the caller's groups fail; otherwise it
      produces exactly what the caller's groups alone produce, together
      with the expected records. */
  lemma Bracketing(e: Echo, middle: seq<Group>, filename: string, parse: string -> Option<Ast>, d: Doc)
    ensures RunChain(BuildChain(e, middle), filename, parse, Empty, d) ==
      if !ParsesAll(d.scripts, parse) then None
      else
        match ApplyGroups(middle, filename, d)
        case None => None
        case Some(d') => Some((Expected(d, d', parse), d'))
  {
    var chain := BuildChain(e, middle);
    assert chain == [Capture(e)] + (Middles(middle) + [Finalize(e)]);
    RunChainAppend([Capture(e)], Middles(middle) + [Finalize(e)], filename, parse, Empty, d);
    CaptureStep(e, filename, parse, d);
    if ParsesAll(d.scripts, parse) {
      var s1 := Slots(Some(Markup(d.markup, None, None)), CapturedSlot(d.scripts, true, parse, None),
                      CapturedSlot(d.scripts, false, parse, None), CapturedStyle(d.styles, None));
      assert RunChain([Capture(e)], filename, parse, Empty, d) == Some((s1, d));
      RunChainAppend(Middles(middle), [Finalize(e)], filename, parse, s1, d);
      MiddleChain(middle, filename, parse, s1, d);
      match ApplyGroups(middle, filename, d)
      case None =>
      case Some(d') =>
        FinalizeStep(e, filename, parse, s1, d');
        assert RunChain([Finalize(e)], filename, parse, s1, d') == Some((Expected(d, d', parse), d'));
    } else {
      assert RunChain([Capture(e)], filename, parse, Empty, d) == None;
    }
  }

  /** The script record of one context: `module` for a truthy `context`, `instance` otherwise. */
  function SlotFor(s: Slots, ctx: bool): Option<Script>
  {
    if ctx then s.moduleScript else s.instance
  }

  /** The markup record always holds the component's text before and after
      the caller's markup handlers; script and style changes never reach it. */
  lemma MarkupRecord(e: Echo, middle: seq<Group>, filename: string, parse: string -> Option<Ast>, d: Doc)
    ensures var r := RunChain(BuildChain(e, middle), filename, parse, Empty, d);
      r.Some? ==>
        && ApplyGroups(middle, filename, d) == Some(r.value.1)
        && r.value.0.markup == Some(Markup(d.markup, Some(r.value.1.markup), Some(Diff(d.markup, r.value.1.markup))))
  {
    Bracketing(e, middle, filename, parse, d);
  }

  /** A script record exists iff some TypeScript script of that context
      exists; it holds the last such script's original text and tree, and
      the final text of the last script of that context. */
  lemma ScriptRecord(e: Echo, middle: seq<Group>, filename: string, parse: string -> Option<Ast>, d: Doc, ctx: bool)
    ensures var r := RunChain(BuildChain(e, middle), filename, parse, Empty, d);
      r.Some? ==>
        var slot := SlotFor(r.value.0, ctx);
        var d' := r.value.1;
        && (slot.Some? <==> exists i :: 0 <= i < |d.scripts| && Matches(Captured(ctx), d.scripts[i].attributes))
        && (slot.Some? ==>
              && LastIndex(d.scripts, Captured(ctx)).Some?
              && LastIndex(d'.scripts, Selected(ctx)).Some?
              && var i := LastIndex(d.scripts, Captured(ctx)).value;
                 var j := LastIndex(d'.scripts, Selected(ctx)).value;
                 && parse(d.scripts[i].content).Some?
                 && slot.value == Script(parse(d.scripts[i].content).value, d.scripts[i].content, "ts",
                                         Some(d'.scripts[j].content), Some(Diff(d.scripts[i].content, d'.scripts[j].content))))
  {
    Bracketing(e, middle, filename, parse, d);
    var r := RunChain(BuildChain(e, middle), filename, parse, Empty, d);
    if r.Some? {
      var d' := r.value.1;
      assert SameShape(d, d');
      match LastIndex(d.scripts, Captured(ctx))
      case None =>
      case Some(i) =>
        assert d'.scripts[i].attributes == d.scripts[i].attributes;
        assert Matches(Selected(ctx), d'.scripts[i].attributes);
    }
  }

  /** The style record exists iff the component has a style tag; it pairs the last style's original and final text. */
  lemma StyleRecord(e: Echo, middle: seq<Group>, filename: string, parse: string -> Option<Ast>, d: Doc)
    ensures var r := RunChain(BuildChain(e, middle), filename, parse, Empty, d);
      r.Some? ==>
        var d' := r.value.1;
        && (r.value.0.style.Some? <==> |d.styles| > 0)
        && (|d.styles| > 0 ==>
              var k := |d.styles| - 1;
              && |d'.styles| == |d.styles|
              && r.value.0.style == Some(Style(d.styles[k].content, Some(d'.styles[k].content), Some(Diff(d.styles[k].content, d'.styles[k].content)))))
  {
    Bracketing(e, middle, filename, parse, d);
  }

  /** The records expected for one TypeScript instance script. */
  lemma SingleInstanceExpected(d: Doc, d': Doc, parse: string -> Option<Ast>)
    requires |d.scripts| == 1
    requires IsTypeScript(d.scripts[0].attributes) && !IsModuleContext(d.scripts[0].attributes)
    requires parse(d.scripts[0].content).Some?
    requires SameShape(d, d')
    ensures ParsesAll(d.scripts, parse)
    ensures Expected(d, d', parse).moduleScript == None
    ensures Expected(d, d', parse).instance == Some(Script(parse(d.scripts[0].content).value, d.scripts[0].content, "ts",
                                                      Some(d'.scripts[0].content), Some(Diff(d.scripts[0].content, d'.scripts[0].content))))
  {
    assert d'.scripts[0].attributes == d.scripts[0].attributes;
    assert LastIndex(d.scripts, Captured(false)) == Some(0);
    assert LastIndex(d.scripts, Captured(true)) == None;
    assert LastIndex(d'.scripts, Selected(false)) == Some(0);
  }

  /** A component with one TypeScript instance script: the instance record
      pairs its original and final text and no module record is made. */
  lemma SingleInstanceScript(e: Echo, middle: seq<Group>, filename: string, parse: string -> Option<Ast>, d: Doc)
    requires |d.scripts| == 1
    requires IsTypeScript(d.scripts[0].attributes) && !IsModuleContext(d.scripts[0].attributes)
    requires parse(d.scripts[0].content).Some?
    ensures var r := RunChain(BuildChain(e, middle), filename, parse, Empty, d);
      ApplyGroups(middle, filename, d).Some? <==> r.Some?
    ensures var r := RunChain(BuildChain(e, middle), filename, parse, Empty, d);
      r.Some? ==>
        && r.value.0.moduleScript == None
        && r.value.0.instance == Some(Script(parse(d.scripts[0].content).value, d.scripts[0].content, "ts",
                                             Some(r.value.1.scripts[0].content),
                                             Some(Diff(d.scripts[0].content, r.value.1.scripts[0].content))))
  {
    assert ParsesAll(d.scripts, parse);
    Bracketing(e, middle, filename, parse, d);
    match ApplyGroups(middle, filename, d)
    case None =>
    case Some(d') =>
      assert SameShape(d, d') by {
        assert RunChain(BuildChain(e, middle), filename, parse, Empty, d) == Some((Expected(d, d', parse), d'));
      }
      SingleInstanceExpected(d, d', parse);
  }
}

=== FILE: entry.dfy ===
/** One lint-time call end to end: the worker's answer to the request
    becomes the arrival the caller's polling observes. The moment the
    message is delivered is an input (`during`: the sleep during which it
    arrives). */
module Entry {
  import opened Types
  import opened Bracket
  import opened Worker
  import Poll

  /** The arrival the caller sees for what the worker posted. */
  function ArrivalOf(p: Posted, during: nat): (a: Poll.Arrival)
    ensures p.NotPosted? ==> a.Never?
    ensures p.Posted? ==> a == Poll.Arrives(during, p.payload)
  {
    match p
    case NotPosted => Poll.Never
    case Posted(payload) => Poll.Arrives(during, payload)
  }

  /** A call served by the main file's worker. A failed preprocess is still
      answered, so polling stops at the answer and the last good result is
      returned unchanged; a successful one becomes the new last good result. */
  method CallMain(b: Poll.Bridge, src: Doc, filename: string, auto: Group, tc: Toolchain, during: nat)
    returns (r: Option<Result>, b': Poll.Bridge, fast: nat, slow: nat)
    ensures during < Poll.MaxSleeps ==> fast + slow == during + 1
    ensures during >= Poll.MaxSleeps ==> fast + slow == Poll.MaxSleeps && r == b.lastResult
    ensures during < Poll.MaxSleeps && PreprocessMain(src, filename, auto, tc).None? ==> r == b.lastResult
    ensures during < Poll.MaxSleeps && PreprocessMain(src, filename, auto, tc).Some? ==>
      r == PreprocessMain(src, filename, auto, tc) && !r.value.hasToString
    ensures b'.lastResult == r && b'.listeners == 0
  {
    var a := ArrivalOf(MainReply(src, filename, auto, tc), during);
    r, b', fast, slow := Poll.Call(b, a);
  }

  /** A call served by the worker script with `toString` stripped: a failed
      preprocess is never answered (on a runtime that keeps the worker alive
      after an unhandled rejection), so the caller waits out both phases and
      returns the last good result. */
  method CallScript(b: Poll.Bridge, src: Doc, filename: string, ps: Preprocessors, tc: Toolchain, during: nat)
    returns (r: Option<Result>, b': Poll.Bridge, fast: nat, slow: nat)
    ensures PreprocessScript(src, filename, ps, tc).None? ==>
      fast + slow == Poll.MaxSleeps && r == b.lastResult
    ensures PreprocessScript(src, filename, ps, tc).Some? && during < Poll.MaxSleeps ==>
      fast + slow == during + 1 && r == Some(PreprocessScript(src, filename, ps, tc).value.(hasToString := false))
    ensures b'.lastResult == r && b'.listeners == 0
  {
    var a := ArrivalOf(ScriptReplyStripped(src, filename, ps, tc), during);
    r, b', fast, slow := Poll.Call(b, a);
  }

  /** A call served by the worker script as written, when the compiler
      output carries its own `toString`: nothing is ever answered (on a
      runtime that keeps the worker alive after an unhandled rejection). */
  method CallScriptAsWritten(b: Poll.Bridge, src: Doc, filename: string, ps: Preprocessors, tc: Toolchain, during: nat)
    returns (r: Option<Result>, b': Poll.Bridge, fast: nat, slow: nat)
    requires forall d :: tc.emit(d).hasToString
    ensures fast + slow == Poll.MaxSleeps
    ensures r == b.lastResult && b'.lastResult == b.lastResult
  {
    ScriptNeverAnswers(src, filename, ps, tc);
    var a := ArrivalOf(ScriptReply(src, filename, ps, tc), during);
    r, b', fast, slow := Poll.Call(b, a);
  }
}

=== FILE: log.dfy ===
/** The worker's log formatter: every argument becomes one text part
    according to its JavaScript type, and the parts are joined with single
    spaces before being posted to the caller as a `LOG` message. */
module Log {
  import opened Types

  /** `Number.MAX_SAFE_INTEGER`. */
  const MaxSafeInteger: int := 0x1F_FFFF_FFFF_FFFF

  /** The numbers modelled: integers a JavaScript number holds exactly. */
  type SafeInteger = n: int | -MaxSafeInteger <= n <= MaxSafeInteger

  /** The JavaScript values a log argument can be. */
  datatype JsValue =
    | Undefined
    | Bool(b: bool)
    | Num(n: SafeInteger)
    | Str(s: string)
    | Null
    | Arr(elements: seq<JsValue>)
    | Error(name: string, message: string, stack: Option<string>)
    | PlainObject

  // ---------------------------------------------------------------------
  // Joining and splitting

  /** `parts.join(sep)`. */
  function Join(parts: seq<string>, sep: string): string
    decreases |parts|
  {
    if |parts| == 0 then ""
    else if |parts| == 1 then parts[0]
    else Join(parts[..|parts| - 1], sep) + sep + parts[|parts| - 1]
  }

  /** Puts one more character in front of the pieces of a split: a
      separator opens a new, empty first piece, any other character joins
      the first piece. */
  function Push(h: char, rest: seq<string>, c: char): (r: seq<string>)
    requires |rest| >= 1
    ensures |r| >= 1
  {
    if h == c then [""] + rest else [[h] + rest[0]] + rest[1..]
  }

  /** `s.split(c)` for a one-character separator. */
  function Split(s: string, c: char): (r: seq<string>)
    ensures |r| >= 1
    decreases |s|
  {
    if |s| == 0 then [""] else Push(s[0], Split(s[1..], c), c)
  }

  lemma {:induction false} SplitWithoutSeparator(s: string, c: char)
    requires c !in s
    ensures Split(s, c) == [s]
    decreases |s|
  {
    if |s| > 0 {
      assert s[0] != c;
      assert c !in s[1..];
      SplitWithoutSeparator(s[1..], c);
      assert [s[0]] + s[1..] == s;
    }
  }

  /** Pushing in front of two lists of pieces only touches the first. */
  lemma PushAppend(h: char, a: seq<string>, b: seq<string>, c: char)
    requires |a| >= 1
    ensures Push(h, a + b, c) == Push(h, a, c) + b
  {
    if h != c {
      assert (a + b)[0] == a[0];
      assert (a + b)[1..] == a[1..] + b;
    }
  }

  lemma {:induction false} SplitAtSeparator(x: string, y: string, c: char)
    ensures Split(x + [c] + y, c) == Split(x, c) + Split(y, c)
    decreases |x|
  {
    var w := x + [c] + y;
    if |x| == 0 {
      assert w[0] == c && w[1..] == y;
    } else {
      assert w[0] == x[0] && w[1..] == x[1..] + [c] + y;
      SplitAtSeparator(x[1..], y, c);
      PushAppend(x[0], Split(x[1..], c), Split(y, c), c);
    }
  }

  /** Joining parts that do not contain the separator can be undone by splitting. */
  lemma {:induction false} SplitJoin(parts: seq<string>, c: char)
    requires |parts| >= 1
    requires forall i :: 0 <= i < |parts| ==> c !in parts[i]
    ensures Split(Join(parts, [c]), c) == parts
    decreases |parts|
  {
    var last := parts[|parts| - 1];
    SplitWithoutSeparator(last, c);
    if |parts| > 1 {
      var init := parts[..|parts| - 1];
      SplitJoin(init, c);
      SplitAtSeparator(Join(init, [c]), last, c);
      assert init + [last] == parts;
    }
  }

  /** Joining two non-empty lists puts one separator between their joins. */
  lemma {:induction false} JoinAppend(a: seq<string>, b: seq<string>, sep: string)
    requires |a| >= 1 && |b| >= 1
    ensures Join(a + b, sep) == Join(a, sep) + sep + Join(b, sep)
    decreases |b|
  {
    if |b| == 1 {
      assert (a + b)[..|a + b| - 1] == a;
    } else {
      var init := b[..|b| - 1];
      assert (a + b)[..|a + b| - 1] == a + init;
      JoinAppend(a, init, sep);
    }
  }

  // ---------------------------------------------------------------------
  // Numbers

  function Digit(d: nat): char
    requires d < 10
  {
    "0123456789"[d]
  }

  predicate IsDigit(ch: char)
  {
    '0' <= ch <= '9'
  }

  function NaturalString(n: nat): (r: string)
    ensures |r| >= 1 && forall i :: 0 <= i < |r| ==> IsDigit(r[i])
    ensures r[0] == '0' <==> n == 0
    ensures n == 0 ==> r == "0"
    decreases n
  {
    if n < 10 then [Digit(n)] else NaturalString(n / 10) + [Digit(n % 10)]
  }

  /** `String(n)` for an integer: its decimal digits, with `-` when negative. */
  function NumberString(n: int): string
  {
    if n < 0 then "-" + NaturalString(-n) else NaturalString(n)
  }

  /** Reads decimal digits back. */
  function DigitsValue(s: string): nat
    requires forall i :: 0 <= i < |s| ==> IsDigit(s[i])
    decreases |s|
  {
    if |s| == 0 then 0
    else
      assert IsDigit(s[|s| - 1]);
      10 * DigitsValue(s[..|s| - 1]) + (s[|s| - 1] as int - '0' as int)
  }

  /** Reads an optional `-` followed by at least one digit. */
  function ParseNumber(s: string): Option<int>
  {
    if |s| >= 2 && s[0] == '-' && forall i :: 1 <= i < |s| ==> IsDigit(s[i]) then
      var n: int := 0 - DigitsValue(s[1..]) as int;
      Some(n)
    else if |s| >= 1 && forall i :: 0 <= i < |s| ==> IsDigit(s[i]) then Some(DigitsValue(s))
    else None
  }

  lemma {:induction false} NaturalRoundTrip(n: nat)
    ensures DigitsValue(NaturalString(n)) == n
    decreases n
  {
    if n >= 10 {
      NaturalRoundTrip(n / 10);
      var s := NaturalString(n);
      assert s[..|s| - 1] == NaturalString(n / 10);
    }
  }

  /** The number part of a log line is read back as the same number. */
  lemma NumberRoundTrip(n: int)
    ensures ParseNumber(NumberString(n)) == Some(n)
  {
    NaturalRoundTrip(if n < 0 then -n else n);
    if n < 0 {
      var s := NumberString(n);
      assert s[1..] == NaturalString(-n);
      assert s[0] == '-';
    } else {
      assert NaturalString(n)[0] != '-';
    }
  }

  // ---------------------------------------------------------------------
  // The formatter

  /** `Error.prototype.toString`. */
  function ErrorString(name: string, message: string): string
  {
    if name == "" then message else if message == "" then name else name + ": " + message
  }

  /** `String(v)`. */
  function ToText(v: JsValue): string
    decreases v
  {
    match v
    case Undefined => "undefined"
    case Bool(b) => if b then "true" else "false"
    case Num(n) => NumberString(n)
    case Str(s) => s
    case Null => "null"
    case Arr(es) => Join(ElementTexts(es), ",")
    case Error(name, message, _) => ErrorString(name, message)
    case PlainObject => "[object Object]"
  }

  /** How `Array.prototype.join` renders each element: `null` and `undefined` as the empty text. */
  function ElementTexts(es: seq<JsValue>): (r: seq<string>)
    ensures |r| == |es|
    ensures forall i :: 0 <= i < |es| ==> r[i] == if es[i].Undefined? || es[i].Null? then "" else ToText(es[i])
    decreases es
  {
    seq(|es|, i requires 0 <= i < |es| => if es[i].Undefined? || es[i].Null? then "" else ToText(es[i]))
  }

  /** One argument's part of the log line. */
  function Part(v: JsValue): string
  {
    match v
    case Num(n) => NumberString(n)
    case Str(s) => s
    case Null => "null"
    case Arr(es) => "[" + Join(ElementTexts(es), ", ") + "]"
    case Error(name, message, stack) => name + ": " + message + "\n" + (match stack case None => "" case Some(t) => t)
    case _ => "undefined"
  }

  function Parts(things: seq<JsValue>): (r: seq<string>)
    ensures |r| == |things|
    ensures forall i :: 0 <= i < |things| ==> r[i] == Part(things[i])
  {
    seq(|things|, i requires 0 <= i < |things| => Part(things[i]))
  }

  /** The text of the `LOG` message for `log(...things)`. */
  function Log(things: seq<JsValue>): string
  {
    Join(Parts(things), " ")
  }

  /** The parts of one value: numbers read back as numbers, strings are
      themselves, arrays are bracketed, errors carry name, message and
      stack, and values that are neither objects, numbers nor strings read
      `undefined`. */
  lemma PartShapes(v: JsValue)
    ensures v.Num? ==> ParseNumber(Part(v)) == Some(v.n as int)
    ensures v.Num? ==> (Part(v)[0] == '-' <==> v.n < 0)
    ensures v.Num? ==> Part(v) == "0" || (Part(v)[0] != '0' && (Part(v)[0] == '-' ==> Part(v)[1] != '0'))
    ensures v.Str? ==> Part(v) == v.s
    ensures v.Null? ==> Part(v) == "null"
    ensures v.Arr? ==> Part(v) == "[" + Join(ElementTexts(v.elements), ", ") + "]"
    ensures v.Arr? ==> |Part(v)| >= 2 && Part(v)[0] == '[' && Part(v)[|Part(v)| - 1] == ']'
    ensures v.Error? ==> Part(v) == v.name + ": " + v.message + "\n" + (if v.stack.Some? then v.stack.value else "")
    ensures v.Undefined? || v.Bool? || v.PlainObject? ==> Part(v) == "undefined"
  {
    if v.Num? {
      NumberRoundTrip(v.n);
    }
  }

  /** Logging a list of values is logging each half, with one space between. */
  lemma LogAppend(a: seq<JsValue>, b: seq<JsValue>)
    requires |a| >= 1 && |b| >= 1
    ensures Log(a + b) == Log(a) + " " + Log(b)
  {
    assert Parts(a + b) == Parts(a) + Parts(b);
    JoinAppend(Parts(a), Parts(b), " ");
  }

  /** When no part contains a space, splitting the line at spaces gives back one part per argument, in order. */
  lemma LogSplitsIntoParts(things: seq<JsValue>)
    requires |things| >= 1
    requires forall i :: 0 <= i < |things| ==> ' ' !in Part(things[i])
    ensures Split(Log(things), ' ') == Parts(things)
    ensures |Split(Log(things), ' ')| == |things|
  {
    SplitJoin(Parts(things), ' ');
  }
}

=== FILE: poll.dfy ===
/** The caller side of the bridge: the synchronous function the linter
    calls. It sends one request, polls for the worker's answer in a fast
    phase and then a slow phase, and returns the fresh result or falls back
    to the last good one.

    Time is not modelled: a sleep is one counted step, and the moment the
    worker's answer reaches the message listener is an input. */
module Poll {
  import opened Types

  const FastIntervalMs: nat := 10
  const SlowIntervalMs: nat := 100
  const FastTotalMs: nat := 2000
  const SlowTotalMs: nat := 2000

  /** Number of polls in each phase: total duration over interval. */
  const FastPolls: nat := FastTotalMs / FastIntervalMs
  const SlowPolls: nat := SlowTotalMs / SlowIntervalMs

  /** Sleeps after which the caller gives up. */
  const MaxSleeps: nat := FastPolls + SlowPolls

  lemma PollCounts()
    ensures FastPolls == 200 && SlowPolls == 20 && MaxSleeps == 220
  {
  }

  /** When the worker's `PREPROCESS_RESULT` message reaches the listener.
      The listener runs only while the caller sleeps: `Arrives(k, p)`
      delivers `p` during the sleep that follows `k` completed sleeps. */
  datatype Arrival = Arrives(sleep: nat, payload: Option<Result>) | Never

  /** The answer has been delivered once `sleeps` sleeps are over. */
  predicate DeliveredBy(a: Arrival, sleeps: nat)
  {
    a.Arrives? && a.sleep < sleeps
  }

  /** The process-wide state: the last good result (undefined at start) and
      the number of message listeners registered on the worker. */
  datatype Bridge = Bridge(lastResult: Option<Result>, listeners: nat)

  const Initial: Bridge := Bridge(None, 0)

  /** Reference for one call: the delivered result when there is one, the
      last good result otherwise. */
  function Answer(last: Option<Result>, a: Arrival): Option<Result>
  {
    if DeliveredBy(a, MaxSleeps) && a.payload.Some? then a.payload else last
  }

  /** One call of the synchronous entry point. `fast` and `slow` count the
      sleeps of each phase. */
  method Call(b: Bridge, a: Arrival) returns (r: Option<Result>, b': Bridge, fast: nat, slow: nat)
    ensures r == Answer(b.lastResult, a)
    ensures b'.lastResult == r
    ensures b'.listeners == 0
    ensures fast <= FastPolls && slow <= SlowPolls
    ensures slow > 0 ==> fast == FastPolls
    ensures a.Arrives? && a.sleep < FastPolls ==> fast == a.sleep + 1 && slow == 0
    ensures a.Arrives? && FastPolls <= a.sleep < MaxSleeps ==> fast == FastPolls && slow == a.sleep + 1 - FastPolls
    ensures !DeliveredBy(a, MaxSleeps) ==> fast == FastPolls && slow == SlowPolls
    ensures fast * FastIntervalMs + slow * SlowIntervalMs <= FastTotalMs + SlowTotalMs
  {
    var result: Option<Result> := None;
    var isDone := false;
    var listeners := b.listeners + 1;
    var sleeps := 0;

    fast := 0;
    while fast < FastPolls && !isDone
      invariant fast <= FastPolls
      invariant sleeps == fast
      invariant isDone == DeliveredBy(a, sleeps)
      invariant isDone ==> a.sleep + 1 == sleeps
      invariant result == (if isDone then a.payload else None)
    {
      // deasync.sleep: the listener may run while the caller sleeps
      if a.Arrives? && a.sleep == sleeps {
        result := a.payload;
        isDone := true;
      }
      sleeps := sleeps + 1;
      fast := fast + 1;
    }

    slow := 0;
    if !isDone {
      while slow < SlowPolls && !isDone
        invariant slow <= SlowPolls
        invariant sleeps == FastPolls + slow
        invariant isDone == DeliveredBy(a, sleeps)
        invariant isDone ==> a.sleep + 1 == sleeps
        invariant result == (if isDone then a.payload else None)
      {
        if a.Arrives? && a.sleep == sleeps {
          result := a.payload;
          isDone := true;
        }
        sleeps := sleeps + 1;
        slow := slow + 1;
      }
    }

    // worker.removeAllListeners("message")
    listeners := 0;

    if result.None? {
      r := b.lastResult;
      b' := Bridge(b.lastResult, listeners);
    } else {
      r := result;
      b' := Bridge(result, listeners);
    }
  }

  /** A run of calls, each with its own arrival, from a given last good result. */
  function Replay(last: Option<Result>, arrivals: seq<Arrival>): Option<Result>
    decreases |arrivals|
  {
    if |arrivals| == 0 then last
    else Answer(Replay(last, arrivals[..|arrivals| - 1]), arrivals[|arrivals| - 1])
  }

  /** The call brought a result. */
  predicate Fresh(a: Arrival)
  {
    DeliveredBy(a, MaxSleeps) && a.payload.Some?
  }

  /** The index of the last call that brought a result. */
  function LastFresh(arrivals: seq<Arrival>): (r: Option<nat>)
    ensures r.Some? ==> r.value < |arrivals| && Fresh(arrivals[r.value])
    ensures r.Some? ==> forall j :: r.value < j < |arrivals| ==> !Fresh(arrivals[j])
    ensures r.None? ==> forall j :: 0 <= j < |arrivals| ==> !Fresh(arrivals[j])
    decreases |arrivals|
  {
    if |arrivals| == 0 then None
    else if Fresh(arrivals[|arrivals| - 1]) then Some(|arrivals| - 1)
    else LastFresh(arrivals[..|arrivals| - 1])
  }

  /** Last-known-good: after any run of calls, the value returned is the
      result of the most recent call that brought one, or the initial value
      when none did. */
  lemma {:induction false} LastKnownGood(last: Option<Result>, arrivals: seq<Arrival>)
    ensures Replay(last, arrivals) ==
      match LastFresh(arrivals)
      case None => last
      case Some(i) => arrivals[i].payload
    decreases |arrivals|
  {
    if |arrivals| > 0 {
      var init := arrivals[..|arrivals| - 1];
      LastKnownGood(last, init);
      if !Fresh(arrivals[|arrivals| - 1]) {
        match LastFresh(init)
        case None =>
        case Some(i) => assert init[i] == arrivals[i];
      }
    }
  }

  /** Starting from the undefined last result, a run of calls returns
      undefined exactly when none of its calls brought a result. */
  lemma NothingBeforeFirstResult(arrivals: seq<Arrival>)
    ensures Replay(Initial.lastResult, arrivals).None? <==> forall j :: 0 <= j < |arrivals| ==> !Fresh(arrivals[j])
  {
    LastKnownGood(Initial.lastResult, arrivals);
  }

  /** A timeout and an answer without a result are the same to the caller. */
  lemma TimeoutLikeFailure(last: Option<Result>, k: nat)
    ensures Answer(last, Never) == last
    ensures Answer(last, Arrives(k, None)) == last
    ensures k >= MaxSleeps ==> forall p :: Answer(last, Arrives(k, p)) == last
  {
  }

  // ---------------------------------------------------------------------
  // What the listener hears

  /** A `PREPROCESS_RESULT` message. The code sends no request number; the
      model tags each reply with the request it answers, to say whose
      answer a call returns. */
  datatype Reply = Reply(request: nat, payload: Option<Result>)

  /** A reply reaching the listener during the sleep that follows `sleep`
      completed sleeps of the current call. */
  datatype Delivery = Delivery(sleep: nat, reply: Reply)

  /** The index of the last delivery during sleep `k`. */
  function LastDuring(ds: seq<Delivery>, k: nat): (r: Option<nat>)
    ensures r.Some? ==> r.value < |ds| && ds[r.value].sleep == k
    ensures r.Some? ==> forall j :: r.value < j < |ds| ==> ds[j].sleep != k
    ensures r.None? ==> forall j :: 0 <= j < |ds| ==> ds[j].sleep != k
    decreases |ds|
  {
    if |ds| == 0 then None
    else if ds[|ds| - 1].sleep == k then Some(|ds| - 1)
    else LastDuring(ds[..|ds| - 1], k)
  }

  /** The replies are listed in the order they reach the listener. */
  predicate InOrder(ds: seq<Delivery>)
  {
    forall i, j :: 0 <= i < j < |ds| ==> ds[i].sleep <= ds[j].sleep
  }

  /** What one call's listener makes of the replies still queued for the
      worker, in delivery order. Every `PREPROCESS_RESULT` overwrites
      `result` and sets `isDone`, whatever request it answers, so the call
      ends after the sleep during which the first reply is delivered, with
      the last reply delivered during that sleep. */
  function Heard(ds: seq<Delivery>): (a: Arrival)
    requires InOrder(ds)
    ensures a.Never? <==> |ds| == 0
    ensures a.Arrives? ==> forall j :: 0 <= j < |ds| ==> a.sleep <= ds[j].sleep
    ensures a.Arrives? ==>
      exists i :: 0 <= i < |ds| && ds[i].sleep == a.sleep && ds[i].reply.payload == a.payload
        && forall j :: i < j < |ds| ==> ds[j].sleep != a.sleep
  {
    if |ds| == 0 then Never
    else
      match LastDuring(ds, ds[0].sleep)
      case Some(i) => Arrives(ds[0].sleep, ds[i].reply.payload)
      case None => assert false; Never
  }

  /** The replies to request `id`, in delivery order. */
  function Own(ds: seq<Delivery>, id: nat): (r: seq<Delivery>)
    ensures forall i :: 0 <= i < |r| ==> r[i].reply.request == id && r[i] in ds
    ensures forall i :: 0 <= i < |ds| && ds[i].reply.request == id ==> ds[i] in r
    ensures (forall i :: 0 <= i < |ds| ==> ds[i].reply.request == id) ==> r == ds
    decreases |ds|
  {
    if |ds| == 0 then []
    else
      var rest := Own(ds[1..], id);
      assert forall i :: 1 <= i < |ds| ==> ds[i] == ds[1..][i - 1];
      if ds[0].reply.request == id then [ds[0]] + rest else rest
  }

  /** Keeping one request's replies keeps them in delivery order. */
  lemma {:induction false} OwnInOrder(ds: seq<Delivery>, id: nat)
    requires InOrder(ds)
    ensures InOrder(Own(ds, id))
    decreases |ds|
  {
    if |ds| > 0 {
      var tail := ds[1..];
      assert forall i :: 0 <= i < |tail| ==> tail[i] == ds[i + 1];
      OwnInOrder(tail, id);
      var rest := Own(tail, id);
      if ds[0].reply.request == id {
        forall k | 0 <= k < |rest|
          ensures ds[0].sleep <= rest[k].sleep
        {
          var m :| 0 <= m < |tail| && tail[m] == rest[k];
        }
        var r := [ds[0]] + rest;
        forall i, j | 0 <= i < j < |r|
          ensures r[i].sleep <= r[j].sleep
        {
          assert r[j] == rest[j - 1];
          if i > 0 {
            assert r[i] == rest[i - 1];
          }
        }
      }
    }
  }

  /** As written: when a call timed out and the host has not run the event
      loop since, its late reply is still queued when the next call starts
      listening, and that call returns it as its
      own result. Its own reply, delivered later, is never looked at. */
  lemma StaleReplyReturned(last: Option<Result>, id: nat, earlier: Result, mine: Option<Result>, k: nat)
    requires k > 0
    ensures var ds := [Delivery(0, Reply(id, Some(earlier))), Delivery(k, Reply(id + 1, mine))];
      Heard(ds) == Arrives(0, Some(earlier)) && Answer(last, Heard(ds)) == Some(earlier)
  {
    var ds := [Delivery(0, Reply(id, Some(earlier))), Delivery(k, Reply(id + 1, mine))];
    assert ds[..1] == [ds[0]];
    assert LastDuring(ds, 0) == Some(0);
  }

  /** One call whose listener keeps only replies to its own request `id`:
      the returned value is the last good result or a payload that answers
      `id`, never another request's; with no other request's reply queued,
      it behaves as the code does. */
  method CallMatched(b: Bridge, id: nat, ds: seq<Delivery>) returns (r: Option<Result>, b': Bridge, fast: nat, slow: nat)
    requires InOrder(ds)
    ensures InOrder(Own(ds, id)) && r == Answer(b.lastResult, Heard(Own(ds, id)))
    ensures r != b.lastResult ==> exists i :: 0 <= i < |ds| && ds[i].reply.request == id && r == ds[i].reply.payload
    ensures (forall i :: 0 <= i < |ds| ==> ds[i].reply.request == id) ==> r == Answer(b.lastResult, Heard(ds))
    ensures b'.lastResult == r && b'.listeners == 0
  {
    var own := Own(ds, id);
    OwnInOrder(ds, id);
    r, b', fast, slow := Call(b, Heard(own));
    if r != b.lastResult {
      var j :| 0 <= j < |own| && own[j].sleep == Heard(own).sleep && own[j].reply.payload == Heard(own).payload;
      assert own[j] in ds;
      var i :| 0 <= i < |ds| && ds[i] == own[j];
    }
  }

  /** With request numbers matched, the stale reply of the previous request
      is ignored and the call returns its own answer when it is delivered
      in time. */
  lemma StaleReplyIgnored(last: Option<Result>, id: nat, earlier: Result, mine: Option<Result>, k: nat)
    requires k > 0
    ensures var ds := [Delivery(0, Reply(id, Some(earlier))), Delivery(k, Reply(id + 1, mine))];
      Answer(last, Heard(Own(ds, id + 1))) == if k < MaxSleeps && mine.Some? then mine else last
  {
    var ds := [Delivery(0, Reply(id, Some(earlier))), Delivery(k, Reply(id + 1, mine))];
    assert ds[1..] == [ds[1]];
    assert ds[1..][1..] == [];
    assert Own(ds, id + 1) == [ds[1]];
    assert LastDuring([ds[1]], k) == Some(0);
  }
}

=== FILE: types.dfy ===
/** Shared vocabulary of the bridge: the optional value, the per-region
    records `Markup`, `Script` and `Style`, and the `Result` the caller
    receives. A field that the source declares optional (`result?`,
    `diff?`) or that may hold `undefined` at run time is an `Option`. */
module Types {

  datatype Option<+T> = None | Some(value: T)

  /** The syntax tree the TypeScript parser returns; its shape belongs to the
      parser and is never inspected here. */
  type Ast

  /** Bracketing record for the whole component text. */
  datatype Markup = Markup(original: string, result: Option<string>, diff: Option<int>)

  /** Bracketing record for one TypeScript `<script>` region. */
  datatype Script = Script(ast: Ast, original: string, ext: string, result: Option<string>, diff: Option<int>)

  /** Bracketing record for one `<style>` region. */
  datatype Style = Style(original: string, result: Option<string>, diff: Option<int>)

  /** What the compiler's `preprocess` resolves to: the generated code, the
      dependency list, and whether the object still carries its own
      `toString` function (which cannot cross a thread boundary). */
  datatype CompilerOutput = CompilerOutput(code: string, dependencies: seq<string>, hasToString: bool)

  /** The caller-visible result: every field of the compiler output plus the
      four bracketing slots, each possibly `undefined`. */
  datatype Result = Result(
    code: string,
    dependencies: seq<string>,
    hasToString: bool,
    moduleScript: Option<Script>,
    instance: Option<Script>,
    markup: Option<Markup>,
    style: Option<Style>)
}

=== FILE: worker.dfy ===
/** The worker side of the bridge: running the bracketed chain through the
    compiler, assembling the `Result`, and answering the caller.

    Two copies exist. The main file's worker (`newWorker` in `src/index.ts`)
    runs the automatic preprocessor group, strips the compiler output's
    `toString`, catches any failure and always answers. The stand-alone
    worker script (`src/worker/index.ts`) takes the caller's group or array
    of groups, keeps the compiler output as it is, and has no `catch`. */
module Worker {
  import opened Types
  import opened Bracket

  /** The foreign parts the worker relies on: the TypeScript parser (`None`
      when it throws) and what the compiler makes of the final component. */
  datatype Toolchain = Toolchain(parse: string -> Option<Ast>, emit: Doc -> CompilerOutput)

  /** The file name handed to the compiler: `filename || "unknown"`. */
  function CompilerFilename(filename: string): (r: string)
    ensures r != ""
    ensures filename != "" ==> r == filename
    ensures filename == "" ==> r == "unknown"
  {
    if filename == "" then "unknown" else filename
  }

  /** `{ ...result, instance, markup, module, style }`. */
  function Assemble(out: CompilerOutput, s: Slots): (r: Result)
    ensures r.code == out.code && r.dependencies == out.dependencies && r.hasToString == out.hasToString
    ensures r.moduleScript == s.moduleScript && r.instance == s.instance && r.markup == s.markup && r.style == s.style
  {
    Result(out.code, out.dependencies, out.hasToString, s.moduleScript, s.instance, s.markup, s.style)
  }

  /** `delete result.toString`: the one field that cannot be cloned is removed, nothing else changes. */
  function StripToString(out: CompilerOutput): (r: CompilerOutput)
    ensures !r.hasToString
    ensures r.code == out.code && r.dependencies == out.dependencies
  {
    out.(hasToString := false)
  }

  /** The main file's `preprocess`: capture, the automatic group, finalize; `None` when the compiler rejects. */
  function PreprocessMain(src: Doc, filename: string, auto: Group, tc: Toolchain): (r: Option<Result>)
    ensures r.Some? <==> ParsesAll(src.scripts, tc.parse) && ApplyGroups([auto], CompilerFilename(filename), src).Some?
    ensures r.Some? ==>
      var d' := ApplyGroups([auto], CompilerFilename(filename), src).value;
      && r.value == Assemble(StripToString(tc.emit(d')), Expected(src, d', tc.parse))
      && !r.value.hasToString
  {
    Bracketing(ReturnsCode, [auto], CompilerFilename(filename), tc.parse, src);
    match RunChain(BuildChain(ReturnsCode, [auto]), CompilerFilename(filename), tc.parse, Empty, src)
    case None => None
    case Some((s, d)) => Some(Assemble(StripToString(tc.emit(d)), s))
  }

  /** The worker script's `preprocess`: capture, the caller's groups, finalize. */
  function PreprocessScript(src: Doc, filename: string, ps: Preprocessors, tc: Toolchain): (r: Option<Result>)
    ensures r.Some? <==> ParsesAll(src.scripts, tc.parse) && ApplyGroups(Normalize(ps), CompilerFilename(filename), src).Some?
    ensures r.Some? ==>
      var d' := ApplyGroups(Normalize(ps), CompilerFilename(filename), src).value;
      r.value == Assemble(tc.emit(d'), Expected(src, d', tc.parse))
  {
    Bracketing(ReturnsNothing, Normalize(ps), CompilerFilename(filename), tc.parse, src);
    match RunChain(BuildChain(ReturnsNothing, Normalize(ps)), CompilerFilename(filename), tc.parse, Empty, src)
    case None => None
    case Some((s, d)) => Some(Assemble(tc.emit(d), s))
  }

  /** What reaches the caller's message listener: a `PREPROCESS_RESULT`
      message with its payload, or nothing. */
  datatype Posted = Posted(payload: Option<Result>) | NotPosted

  /** Only a payload without a function-valued field survives the structured clone. */
  predicate Cloneable(payload: Option<Result>)
  {
    payload.None? || !payload.value.hasToString
  }

  /** `postMessage`: a payload that cannot be cloned throws instead of being sent. */
  function PostResult(payload: Option<Result>): (p: Posted)
    ensures p.Posted? <==> Cloneable(payload)
    ensures p.Posted? ==> p.payload == payload
  {
    if Cloneable(payload) then Posted(payload) else NotPosted
  }

  /** The main file's worker handler: a failure is caught and answered as an
      undefined result, so the caller always gets an answer. */
  function MainReply(src: Doc, filename: string, auto: Group, tc: Toolchain): (p: Posted)
    ensures p.Posted?
    ensures p.payload.None? <==> !ParsesAll(src.scripts, tc.parse) || ApplyGroups([auto], CompilerFilename(filename), src).None?
    ensures p.payload == PreprocessMain(src, filename, auto, tc)
  {
    PostResult(PreprocessMain(src, filename, auto, tc))
  }

  /** The worker script's handler as written: no `catch`, and the compiler
      output is posted with its `toString` still attached. */
  function ScriptReply(src: Doc, filename: string, ps: Preprocessors, tc: Toolchain): (p: Posted)
    ensures p.Posted? <==> PreprocessScript(src, filename, ps, tc).Some? && !PreprocessScript(src, filename, ps, tc).value.hasToString
    ensures p.Posted? ==> p.payload == PreprocessScript(src, filename, ps, tc)
  {
    match PreprocessScript(src, filename, ps, tc)
    case None => NotPosted
    case Some(r) => PostResult(Some(r))
  }

  /** When the compiler output carries its own `toString`, the worker script
      as written never answers, whatever the component: `postMessage`
      throws inside the handler and nothing catches it. */
  lemma ScriptNeverAnswers(src: Doc, filename: string, ps: Preprocessors, tc: Toolchain)
    requires forall d :: tc.emit(d).hasToString
    ensures ScriptReply(src, filename, ps, tc) == NotPosted
  {
    match PreprocessScript(src, filename, ps, tc)
    case None =>
    case Some(r) =>
      var d' := ApplyGroups(Normalize(ps), CompilerFilename(filename), src).value;
      assert tc.emit(d').hasToString;
  }

  /** The worker script with `toString` stripped before posting, as the main
      file does: every successful run is answered, with the assembled
      result minus `toString`, and a failed one is not answered. */
  function ScriptReplyStripped(src: Doc, filename: string, ps: Preprocessors, tc: Toolchain): (p: Posted)
    ensures p.Posted? <==> PreprocessScript(src, filename, ps, tc).Some?
    ensures p.Posted? ==> p.payload == Some(PreprocessScript(src, filename, ps, tc).value.(hasToString := false))
  {
    match PreprocessScript(src, filename, ps, tc)
    case None => NotPosted
    case Some(r) => PostResult(Some(r.(hasToString := false)))
  }

  // ---------------------------------------------------------------------
  // The component `<script lang="ts">let x=1</script>`

  const ExampleSource: Doc := Doc("<script lang=\"ts\">let x=1</script>", [Tag(map["lang" := Text("ts")], "let x=1")], [])

  /** A group whose script handler compiles `let x=1` to `var x=1;`. */
  function ExampleGroup(): Group
  {
    Group(None, Some((i: Input) => if i.content == "let x=1" then Code("var x=1;") else NoResult), None)
  }

  /** The TypeScript instance script is recorded with original `let x=1`,
      result `var x=1;` and diff 7 - 8 = -1; no module or style record. The
      markup record keeps the component text unchanged, with diff 0: the
      script's rewrite never reaches it. */
  lemma ExampleInstanceRecord(filename: string, tc: Toolchain)
    requires tc.parse("let x=1").Some?
    ensures var r := PreprocessMain(ExampleSource, filename, ExampleGroup(), tc);
      && r.Some?
      && r.value.instance == Some(Script(tc.parse("let x=1").value, "let x=1", "ts", Some("var x=1;"), Some(-1)))
      && r.value.moduleScript == None
      && r.value.style == None
      && r.value.markup == Some(Markup(ExampleSource.markup, Some(ExampleSource.markup), Some(0)))
  {
    var fn := CompilerFilename(filename);
    var d := ExampleSource;
    var g := ExampleGroup();
    assert IsTypeScript(d.scripts[0].attributes) by {
      assert HasText(d.scripts[0].attributes, "lang", "ts");
    }
    assert ParsesAll(d.scripts, tc.parse);
    assert d.scripts[..0] == [];
    var tags' := [Tag(map["lang" := Text("ts")], "var x=1;")];
    var t := d.scripts[0];
    assert MapTags(g.script, fn, d.scripts[..0]) == Some([]);
    assert Invoke(g.script, Input(t.content, t.attributes, fn)) == Code("var x=1;");
    assert MapTags(g.script, fn, d.scripts) == Some([] + [Tag(t.attributes, "var x=1;")]);
    assert [] + [Tag(t.attributes, "var x=1;")] == tags';
    assert MapTags(g.style, fn, d.styles) == Some([]);
    var d' := Doc(d.markup, tags', []);
    assert ApplyGroup(g, fn, d) == Some(d');
    assert ApplyGroups([g], fn, d) == Some(d') by {
      assert [g][1..] == [];
    }
    SingleInstanceScript(ReturnsCode, [g], fn, tc.parse, d);
    StyleRecord(ReturnsCode, [g], fn, tc.parse, d);
    MarkupRecord(ReturnsCode, [g], fn, tc.parse, d);
    Bracketing(ReturnsCode, [g], fn, tc.parse, d);
    assert |"let x=1"| == 7 && |"var x=1;"| == 8;
  }
}
